=== FILE: README.md ===
# Pac-Man node-graph navigation, modelled in Dafny

This project models the navigation core of a Bevy Pac-Man clone. Agents
(Pac-Man and the ghosts) move between the nodes of a graph. Each agent keeps
a current node, an optional target node, a heading (`node_direction`) and an
optional queued heading. Every frame the game does three things for
Pac-Man:

- It turns keyboard input into a heading request.
- It moves Pac-Man along its heading.
- It checks with a squared-distance test whether Pac-Man has travelled the
  length of the edge ahead, measured towards the node linked in its
  heading. On arrival it snaps Pac-Man onto its target node, which can
  differ from the node the test measured towards (see below). It then
  teleports Pac-Man through a portal if there is one, and applies the
  queued heading if that heading is valid there.

Ghosts have no per-frame system. `initialize_ghost_movement` picks a
heading once, at random among the linked headings of the ghost's node,
leaving out the reverse of its current heading, and sets the ghost's
target. No system in the source moves a ghost after that. The ghost's own
overshoot test exists but nothing calls it.

The model is functional throughout:

- Graph nodes live in a `map<Handle, NodeRec>`. A failed query lookup is a
  handle that is not in the map.
- Agents are immutable records.
- Each operation is a pure function from a state to a new state.
- The on-screen position (the Bevy `Transform`) is passed in and returned
  next to the record.
- Coordinates, speed and `dt` are exact `real`s.
- Lemmas whose parameters include integers or records carry
  `{:induction false}`: their proofs are case splits and explicit steps,
  never inductions, and Dafny's automatic induction would only add work.

Modules:

- `Wrappers`: `Option` and `HashMap::get`.
- `Direction`: headings, `Opposite` and the scan order.
- `Geometry`: screen constants, vectors and squared length.
- `Graph`: nodes and links.
- `PacmanNav`: `src/pacman.rs`.
- `GhostNav`: `src/ghosts.rs`.
- `Gameplay`: `src/gameplay.rs`.
- `Maze`: `src/map.rs`.
- `TestNodes`: the fixture in `src/node.rs`.
- `Scenarios`: concrete runs on that fixture, and how Pac-Man's and the
  ghosts' lookups relate.

Behaviour of the code worth knowing:

- **Dead ends.** A ghost at a dead end is not forced to reverse.
  `valid_directions` returns just the current heading, and setting off
  that way stops the ghost (`GhostNav.DeadEndStops`).
- **Key-only validity.** Pac-Man's `valid_direction` tests only that the
  heading is a key of the neighbour table, so a heading mapped to None
  counts as valid. In the test graph, D lists Down with no neighbour. A
  queued Down is therefore used up on arrival at D, and Pac-Man stops there
  instead of going on to E (`Scenarios.QueuedDeadHeadingStopsAtD`).
- **Invalid queued heading.** When the queued heading is not valid on
  arrival, the movement step changes neither the heading nor `target_node`.
  `target_node` keeps naming the node just reached, so the navigation
  invariant fails until an input pass with no arrow key held re-applies the
  heading (`Gameplay.ArrivalLeavesStaleTarget`). While a held arrow key (other
  than the reverse) has no entry at that node, the input pass only
  re-queues it and the stale target survives. When Pac-Man then travels the
  length of the next edge, the overshoot test (which measures towards the
  node ahead) fires and snaps it back onto the stale target, so it cannot
  get past that node for as long as that key is held
  (`Scenarios.ArriveWithInvalidQueue`, `Scenarios.HeldKeySnapsBack`).
- **Overshoot ignores direction.** The test compares only squared
  distances. In the test graph, Down is +y, but moving Down is −y. A
  Pac-Man heading Down from A moves away from C, yet after 80 units it is
  snapped onto C (`Scenarios.DownSnapsAcross`).
- **Zero or negative `dt`.** The code does not guard against it, and
  neither does the model.

Assumption: the game's `PacManDirection::opposite()` is not part of this
model. `Direction.Opposite` assumes that Up and Down are each other's
reverse, as are Left and Right, and that Stop is its own reverse.

## Model

| member | source | states |
|---|---|---|
| PacmanNav.New | src/pacman.rs:23-39 | A new Pac-Man is stopped with no target, is not reversing, moves at speed 100, and keeps the given node, node position and queued heading; it satisfies the navigation invariant |
| PacmanNav.ValidDirection | src/pacman.rs:76-81 | False for Stop and when the current node is not found; otherwise true exactly when the heading is a key of the node's neighbour table |
| PacmanNav.ValidDirectionIsKeyPresence | src/pacman.rs:76-93 | A linked heading is always valid, and a heading whose entry is None is valid too, yet gives the current node as target |
| PacmanNav.GetNewTarget | src/pacman.rs:84-93 | Returns the neighbour linked in a non-Stop heading, and the current node in every other case (Stop, missing node, missing key, None entry) |
| PacmanNav.SetDirectionAndTarget | src/pacman.rs:96-125 | Ends either heading in the new direction towards a node other than the current one, linked from it in that heading, or stopped with no target (and a target exists exactly when such a link exists). Without reversal the current node is kept; with reversal and a target, the target becomes current. Queue, speed and node position are untouched |
| PacmanNav.SetStopStops | src/pacman.rs:84-93 | Setting the heading Stop always ends stopped with no target, reversing or not |
| PacmanNav.ReversalTargetRecomputed | src/pacman.rs:105-124 | The provisional target written by a reversal is overwritten: with no link ahead of the swapped-in node, the result has no target |
| PacmanNav.OvershotTarget | src/pacman.rs:128-143 | False when the current node is not found; true only when the node ahead, looked up again from the heading, exists |
| PacmanNav.StoppedAlwaysOvershoots | src/pacman.rs:129-136 | A stopped Pac-Man on an existing node always counts as having overshot, because the edge ahead has length zero |
| PacmanNav.OvershootIgnoresTargetNode | src/pacman.rs:128-143 | The overshoot test gives the same answer whatever `target_node` holds |
| Gameplay.KeyPriority | src/gameplay.rs:11-21 | The request is the held arrow key ranked first in the order Up, Down, Left, Right, and None exactly when no arrow key is held |
| Gameplay.InputStep | src/gameplay.rs:24-42 | When stopped, a request is applied at once without reversal and the queue is cleared. A request for the reverse heading is applied at once as a reversal (the approached node becomes current) and the queue is cleared. Any other request only sets the queue. No request re-applies the current heading, keeping node and queue. Whenever the heading is (re)applied, Pac-Man ends heading in the applied direction towards exactly the node linked that way from its current node, or stopped with no target when there is no such link. Speed, radius, node position and the reversing flag are kept |
| Gameplay.PlayerInput | src/gameplay.rs:5-44 | One input pass keeps the navigation invariant, and re-establishes it whenever no arrow key is held |
| Gameplay.InputKeepsSettled | src/gameplay.rs:24-42 | The input step preserves the navigation invariant for every request |
| Gameplay.ReversalSwapsEnds | src/gameplay.rs:31-34 | Moving from A to B with a link back from B to A, the reverse request makes B current, A the target and the reverse heading current in the same pass |
| Gameplay.Delta | src/gameplay.rs:55-62 | A frame's displacement changes one coordinate at most: Up is +y, Down −y, Left −x and Right +x by the given distance; Stop gives zero |
| Gameplay.DeltaReverses | src/gameplay.rs:55-62 | The displacement for the reverse heading is the negated displacement |
| Gameplay.OvershootOnAxis | src/gameplay.rs:55-69 | When the node ahead lies `len` along the heading, the squared-distance test fires exactly when the distance travelled along the heading reaches `len` |
| Gameplay.ExitOf | src/gameplay.rs:78-104 | When the arrived node is a portal and the opposite lookup finds an existing node, the arrival ends on that opposite node; in every other case it ends on the arrived node |
| Gameplay.Arrive | src/gameplay.rs:72-105 | After arrival the position equals the final node's position exactly. The final node is the one `ExitOf` names, so a portal with a found opposite node teleports Pac-Man there. Nothing but the current node and node position changes |
| Gameplay.ApplyQueued | src/gameplay.rs:107-113 | A queued heading that is valid at the node is applied without reversal and the queue is cleared: Pac-Man then heads that way towards exactly the node linked in that heading, or stops with no target when there is none. Otherwise the record is left unchanged. Speed, radius and the reversing flag are kept |
| Gameplay.MovementStep | src/gameplay.rs:47-118 | Without arrival only the position moves, by the displacement `Delta` of the heading and `speed * dt` (the helper `Advance`, lines 55-66). On arrival the position is snapped exactly onto the final node, which is the target or its portal exit. A valid queued heading is then used up: Pac-Man has a target exactly when that heading links to another node, and then heads that way towards it, or it stops with no target. With no valid queued heading, the queue, heading and target stay as they were. Speed, radius and the reversing flag never change |
| Gameplay.OvershootAgainstAxis | src/gameplay.rs:55-69 | The test is blind to direction: when the node ahead lies `len` against the heading, it fires exactly when Pac-Man has travelled `len` along the heading, away from that node |
| Gameplay.ArrivalLeavesStaleTarget | src/gameplay.rs:107-113 | An arrival with nothing queued leaves the target naming the node just reached, so the invariant fails; an input pass with no arrow key held restores it |
| Gameplay.PortalArrivalTeleports | src/gameplay.rs:69-104 | An arrival at a portal whose opposite node is found ends the frame on that node, at its position; an arrival at a node that is not a portal ends on the target itself |
| GhostNav.New | src/ghosts.rs:23-40 | A new ghost is stopped with no target, visible, not reversing, moves at speed 100, and keeps the given node and queue |
| GhostNav.Candidates | src/ghosts.rs:118-128 | The scan keeps exactly the headings with a stored neighbour that are not the reverse of the current heading, in scan order and with no repeats |
| GhostNav.ValidDirections | src/ghosts.rs:96-140 | Never empty. When some non-Stop heading qualifies, exactly the qualifying headings are returned, in the order Up, Down, Left, Right. When none qualifies, including when the node is not found, exactly the current heading is returned |
| GhostNav.ChooseRandomDirection | src/ghosts.rs:142-151 | None exactly for an empty list; otherwise an element of the list |
| GhostNav.EveryCandidateCanBeChosen | src/ghosts.rs:148-150 | Every element of the list is drawn for some random index |
| GhostNav.GetNewTarget | src/ghosts.rs:154-163 | With no validity gate, returns the neighbour stored under any heading (Stop included), else the current node |
| GhostNav.SetDirectionAndTarget | src/ghosts.rs:166-195 | Ends either heading towards a node other than the current one, linked from it in the new heading, or stopped with no target. Reversal swaps in the target as for Pac-Man |
| GhostNav.OvershotTarget | src/ghosts.rs:198-213 | False when the current node is not found; true only when the node ahead, looked up from the heading, exists. `Scenarios.GhostOvershootIsPacmans` states that it is Pac-Man's squared-distance rule |
| GhostNav.InitializeMovement | src/ghosts.rs:78-93 | The ghost stays on its node and satisfies the invariant. The drawn heading (entry `pick` mod length of the valid list) is always applied: the ghost has a target exactly when that heading links to another node, and then heads that way towards it; otherwise it stops. Every field other than heading and target is kept |
| GhostNav.DeadEndStops | src/ghosts.rs:132-137 | At a node whose only link (if any) leads back the way the ghost came, whatever other headings its table lists with no neighbour, the list is just the current heading, and setting off that way stops the ghost; it does not reverse |
| GhostNav.SpawnedGhostMoves | src/ghosts.rs:78-93 | A ghost on a node with a link it may take (not the reverse of its heading) and no self-link sets off along a link, whatever index is drawn |
| Scenarios.GateOnlyExcludesStop | src/ghosts.rs:154-163 | On every heading other than Stop, Pac-Man's gated lookup and the ghost's ungated lookup agree; on Stop, Pac-Man's lookup gives the current node |
| Scenarios.GhostOvershootIsPacmans | src/ghosts.rs:198-213 | For the same current node and the same heading other than Stop, the ghost's overshoot test and Pac-Man's give the same answer at every position |
| Scenarios.StopKeyOnlyMovesGhosts | src/ghosts.rs:156-160 | Under a Stop key that stores a link, a ghost sets off and Pac-Man stops |
| Scenarios.StartRightFromA | src/gameplay.rs:26-29 | In the test graph, holding Right at A starts Pac-Man towards B; nothing else about the record changes |
| Scenarios.StartDownFromA | src/gameplay.rs:26-29 | Holding Down at A starts Pac-Man with C as target; nothing else about the record changes |
| Scenarios.UpOutranksRight | src/gameplay.rs:11-21 | Holding Up and Right requests Up, which has no link at A, so Pac-Man stays stopped |
| Scenarios.ArriveAtB | src/gameplay.rs:69-76 | One second at speed 100 lands Pac-Man exactly on B's position, with B current |
| Scenarios.ReverseMidEdge | src/gameplay.rs:31-34 | Pressing Left after setting off from A towards B, before B is reached, makes B current and A the target at once |
| Scenarios.DownSnapsAcross | src/gameplay.rs:57-58 | Heading Down from A moves to (−80, −160), yet the overshoot test fires and snaps Pac-Man onto C at (−80, 0) |
| Scenarios.QueuedTurnAtB | src/gameplay.rs:107-113 | Moving Right from A with Down queued, Pac-Man arrives on B and in the same frame turns Down towards D, with the queue spent |
| Scenarios.QueuedDeadHeadingStopsAtD | src/gameplay.rs:107-113 | A queued Down is used up on arrival at D, where it has no neighbour, and Pac-Man stops at D |
| Scenarios.CandidatesAtA | src/ghosts.rs:118-128 | The scan at A, heading Stop, yields Down then Right |
| Scenarios.GhostChoicesAtA | src/ghosts.rs:78-93 | A ghost spawned at A heads to C when it draws index 0 and to B when it draws index 1 |
| Scenarios.WrapThroughPortal | src/gameplay.rs:78-104 | In a corridor with portals at both ends, Pac-Man heading Left into the left portal ends the frame on the right portal, at its position |
| Scenarios.ArriveWithInvalidQueue | src/gameplay.rs:107-113 | Arriving on a node where the queued Up has no entry keeps the queue and heading and leaves the target naming that node |
| Scenarios.HeldKeySnapsBack | src/gameplay.rs:35-38 | With that stale target and Up held, the input pass changes nothing, and moving the length of the next edge snaps Pac-Man back onto the node it was leaving |
| Maze.MapSize | src/map.rs:5-6 | The grid is 448/16 = 28 tiles wide and 512/16 = 32 tiles high |
| Maze.BorderedGrid | src/map.rs:36 | The generated grid has 32 rows of 28 tiles |
| Maze.GenerateGrid | src/map.rs:35-50 | Returns 32 rows of 28 tiles. Tiles in row 0, the last row, column 0 and the last column are Wall; all others are Path |
| Maze.GenerateDebugGrid | src/map.rs:52-67 | Returns exactly the same grid as the other generator |
| Maze.NewMap | src/map.rs:27-32 | Width is the length of the first row (28), height the number of rows (32), and the map is rectangular |
| Maze.NoPellets | src/map.rs:36-49 | No generated tile is a Pellet |
| Maze.IsWall | src/map.rs:162-168 | Inside the grid, true exactly for a Wall tile; outside the grid, false |
| Maze.IsWallOnBuiltMap | src/map.rs:162-168 | On the built map, `is_wall` holds exactly on the four border lines |
| Maze.OutsideIsNotWall | src/map.rs:166 | Position (−1, 0), just off the grid, is not a wall as written |
| Maze.IsBlocked | src/map.rs:166 | Corrected test: true outside the grid, and inside it exactly for a Wall tile |
| Maze.OpenTilesAreInterior | src/map.rs:162-168 | With off-grid positions blocked, the open positions of the built map are exactly its interior tiles |
| Maze.TileCentre | src/map.rs:72-73 | The centre of every tile of the grid lies strictly inside the 448 x 512 screen |
| Maze.TileCentreSteps | src/map.rs:72-73 | Adjacent columns are +16 apart in x and adjacent rows −16 apart in y, and tile (0, 0) is centred at (−216, 248) |
| TestNodes.NewNode | src/node.rs:21-31 | A new node has the given position, exactly the four keys Up, Down, Left and Right, and None under each |
| TestNodes.SetupTestNodes | src/node.rs:46-57 | The node list is A..G in spawn order, and the graph holds exactly those seven nodes |
| TestNodes.NodesIsTestGraph | src/node.rs:46-129 | The graph `setup_test_nodes` builds from `Node::new` nodes with replaced tables holds exactly the seven expected nodes: each keeps the position it was spawned at, is no portal, and carries its table. So every lemma stated over the test graph applies to it |
| TestNodes.SevenDistinctNodes | src/node.rs:48-57 | The node list has seven distinct entries, exactly the nodes of the graph |
| TestNodes.AllHeadingsPresent | src/node.rs:58-128 | Every fixture node lists all four headings, and never Stop: the same keys `Node::new` gave it |
| TestNodes.LinksAreSymmetric | src/node.rs:58-128 | A link from X to Y in a heading is matched by a link from Y to X in the opposite heading |
| TestNodes.LinksAreAxisAligned | src/node.rs:46-128 | No node links to itself. Left and Right links share y, with Right increasing x; Up and Down links share x, with Down increasing y |

## Left out

- Rendering and debug output are not modelled: `setup_debug_map`, `render_nodes_as_quads`, the sprite bundles of `spawn_pacman` and `spawn_ghost`, `spawn_camera`, `setup_map_system` and every `println!`.
- `Pacman::find_spawn_node`, `spawn_pacman` and `spawn_ghost` pick the first node the ECS query yields, an order this model does not have; callers of `PacmanNav.New` and `GhostNav.New` pass the node.
- The order of the two Pac-Man systems within a frame is not fixed by the source: `src/main.rs` registers the input and movement systems without chaining them. The scenarios that combine both run the input pass first.
- App wiring in `src/main.rs` is not modelled. It also never declares the ghosts module, so the ghost code is modelled as stand-alone logic.
- The Bevy ECS is replaced by explicit data. `Commands` and `Query` become a node map, `Entity` becomes a `nat` handle, and keyboard polling becomes a set of held keys.
- `find_opposite_portal`, `X_OFFSET`/`Y_OFFSET` and the `node_list.get((x, y))` lookup are not part of this model. Together they become one partial map `exits` from a portal to its opposite node. So the mirror geometry, and any portal round trip, are not stated. The unused `grid_x`/`grid_y` are dropped.
- The test graph of `src/node.rs` is built from that file's own `Node` component, keyed by its own four-value `Direction` and with no portal flag, while the movement code reads `MapNode` components keyed by `PacManDirection`. The model identifies the two: fixture nodes are treated as `MapNode`s, with `Direction` mapped onto `Dir` by name and `is_portal` false. The source itself never converts one into the other, so every scenario on the test graph rests on this identification.
- Building the node graph from the tile grid (the neighbour scan and portal marking) is not part of this model. Only the hand-built test graph of `src/node.rs` is.
- f32 rounding is not modelled: coordinates, speed and `dt` are exact reals, and the Transform's z coordinate is dropped.
- `thread_rng` is replaced by the index it would draw.
- GhostNav.ChooseRandomDirection: states membership, and `GhostNav.EveryCandidateCanBeChosen` states that every element can be drawn, but not that the draw is uniform, because probabilities are not modelled.
- Direction.Opposite: the game's own definition is not part of this model; it is assumed to swap Up/Down and Left/Right and fix Stop.
- The ghosts' `goal`, `radius` and `is_visible` fields are set by `Ghost::new` but never read by the modelled code.

## Findings

| source | as written | input that shows it | evidently intended | confidence | as-written member | corrected member |
|---|---|---|---|---|---|---|
| src/map.rs:162-168 | `is_wall` returns false for positions outside the grid, while its comment says such positions are treated as walls | x = −1, y = 0 on the built map | Off-grid positions count as walls, so the open positions are exactly the interior tiles | not executed; the comment on line 166 states the intent | Maze.OutsideIsNotWall | Maze.OpenTilesAreInterior |

=== FILE: direction.dfy ===
/** Agent headings (the game's `PacManDirection`). */
module Direction {

  datatype Dir = Up | Down | Left | Right | Stop

  /** The four headings that name a neighbour, in the order the ghost code scans them. */
  const Cardinals: seq<Dir> := [Up, Down, Left, Right]

  lemma CardinalsAreNotStop(d: Dir)
    ensures d in Cardinals <==> d != Stop
  {
  }

  /** The reverse heading. The game's own `opposite()` is not part of this
      model: this definition is an assumption (Up and Down, Left and Right
      are each other's reverse, and Stop is its own). */
  function Opposite(d: Dir): (r: Dir)
    ensures r == Stop <==> d == Stop
    ensures d != Stop ==> r != d
  {
    match d
    case Up => Down
    case Down => Up
    case Left => Right
    case Right => Left
    case Stop => Stop
  }

  lemma OppositeInvolutive(d: Dir)
    ensures Opposite(Opposite(d)) == d
  {
  }

  /** Position of a heading in the scan order Up, Down, Left, Right; Stop comes last. */
  function Rank(d: Dir): nat
  {
    match d
    case Up => 0
    case Down => 1
    case Left => 2
    case Right => 3
    case Stop => 4
  }

  /** Every element ranks strictly before the ones after it (so no heading repeats). */
  ghost predicate StrictlyRanked(ds: seq<Dir>)
  {
    forall i, j :: 0 <= i < j < |ds| ==> Rank(ds[i]) < Rank(ds[j])
  }

  /** Dropping the head keeps the order, and the head ranks before the rest. */
  lemma RankedTail(ds: seq<Dir>)
    requires StrictlyRanked(ds) && |ds| > 0
    ensures StrictlyRanked(ds[1..])
    ensures forall e :: e in ds[1..] ==> Rank(ds[0]) < Rank(e)
  {
    forall e | e in ds[1..] ensures Rank(ds[0]) < Rank(e) {
      var k :| 0 <= k < |ds[1..]| && ds[1..][k] == e;
      assert ds[k + 1] == e;
    }
  }
}

=== FILE: gameplay.dfy ===
/** The per-frame systems that drive Pac-Man (src/gameplay.rs): the keyboard
    policy and the move / arrive / teleport / turn step. */
module Gameplay {
  import opened Wrappers
  import opened Direction
  import opened Geometry
  import opened Graph
  import opened PacmanNav

  /** Keys the input system polls; every other key is `Other`. */
  datatype KeyCode = ArrowUp | ArrowDown | ArrowLeft | ArrowRight | Other(code: nat)

  /** The arrow key for heading `d` is held (Stop has no key). */
  predicate Pressed(pressed: set<KeyCode>, d: Dir)
  {
    match d
    case Up => ArrowUp in pressed
    case Down => ArrowDown in pressed
    case Left => ArrowLeft in pressed
    case Right => ArrowRight in pressed
    case Stop => false
  }

  /** The requested heading: the held arrow that comes first in the order
      Up, Down, Left, Right, or None when no arrow is held. */
  function KeyPriority(pressed: set<KeyCode>): (r: Option<Dir>)
    ensures r.None? <==> forall d :: !Pressed(pressed, d)
    ensures r.Some? ==> Pressed(pressed, r.value) && forall d :: Pressed(pressed, d) ==> Rank(r.value) <= Rank(d)
  {
    if ArrowUp in pressed then assert Pressed(pressed, Up); Some(Up)
    else if ArrowDown in pressed then assert Pressed(pressed, Down); Some(Down)
    else if ArrowLeft in pressed then assert Pressed(pressed, Left); Some(Left)
    else if ArrowRight in pressed then assert Pressed(pressed, Right); Some(Right)
    else None
  }

  /** One pass of `pacman_input_system` over a requested heading: start at
      once when stopped, reverse at once on the opposite heading, queue any
      other request; with no request, re-apply the current heading. */
  function InputStep(p: Pacman, g: NodeMap, request: Option<Dir>): (r: Pacman)
    ensures request.Some? && p.nodeDirection == Stop ==>
              && r.queuedDirection.None?
              && r.currentNode == p.currentNode
              && (r.targetNode.Some? <==> request.value != Stop && CanLeave(g, p.currentNode, request.value))
              && (r.targetNode.Some? ==> r.nodeDirection == request.value && Link(g, r.currentNode, request.value) == r.targetNode)
    ensures request.Some? && p.nodeDirection != Stop && request.value == Opposite(p.nodeDirection) ==>
              && r.queuedDirection.None?
              && r.currentNode == (if p.targetNode.Some? then p.targetNode.value else p.currentNode)
              && (r.targetNode.Some? <==> CanLeave(g, r.currentNode, request.value))
              && (r.targetNode.Some? ==> r.nodeDirection == request.value && Link(g, r.currentNode, request.value) == r.targetNode)
    ensures request.Some? && p.nodeDirection != Stop && request.value != Opposite(p.nodeDirection) ==>
              r == p.(queuedDirection := request)
    ensures request.None? ==>
              && r.queuedDirection == p.queuedDirection
              && r.currentNode == p.currentNode
              && (r.targetNode.Some? <==> p.nodeDirection != Stop && CanLeave(g, p.currentNode, p.nodeDirection))
              && (r.targetNode.Some? ==> r.nodeDirection == p.nodeDirection && Link(g, r.currentNode, p.nodeDirection) == r.targetNode)
    ensures !(request.Some? && p.nodeDirection != Stop && request.value != Opposite(p.nodeDirection)) ==>
              (r.targetNode.None? ==> r.nodeDirection == Stop)
    ensures r.nodePosition == p.nodePosition && r.speed == p.speed
    ensures r.radius == p.radius && r.isReversing == p.isReversing
  {
    match request
    case Some(d) =>
      if p.nodeDirection == Stop then
        SetDirectionAndTarget(p, d, g, false).(queuedDirection := None)
      else if Opposite(p.nodeDirection) == d then
        SetDirectionAndTarget(p, d, g, true).(queuedDirection := None)
      else
        p.(queuedDirection := Some(d))
    case None =>
      SetDirectionAndTarget(p, p.nodeDirection, g, false)
  }

  /** `pacman_input_system` for one Pac-Man and one frame's keyboard state. */
  function PlayerInput(p: Pacman, g: NodeMap, pressed: set<KeyCode>): (r: Pacman)
    ensures Settled(p) ==> Settled(r)
    ensures (forall d :: !Pressed(pressed, d)) ==> Settled(r)
  {
    InputStep(p, g, KeyPriority(pressed))
  }

  /** The displacement for one frame: `distance` along the heading, with Up
      as +y and Right as +x; nothing when stopped. */
  function Delta(d: Dir, distance: real): (v: Vec2)
    ensures d == Stop ==> v == Zero
    ensures d == Up || d == Down ==> v.x == 0.0 && v.y == (if d == Up then distance else -distance)
    ensures d == Left || d == Right ==> v.y == 0.0 && v.x == (if d == Right then distance else -distance)
  {
    match d
    case Up => Vec2(0.0, distance)
    case Down => Vec2(0.0, -distance)
    case Left => Vec2(-distance, 0.0)
    case Right => Vec2(distance, 0.0)
    case Stop => Vec2(0.0, 0.0)
  }

  /** Where Pac-Man is after moving `dt` seconds at its speed, before any
      snap. Its meaning is stated by `MovementStep` and `OvershootOnAxis`. */
  function Advance(p: Pacman, pos: Vec2, dt: real): Vec2
  {
    Add(pos, Delta(p.nodeDirection, p.speed * dt))
  }

  /** The node an arrival at `t` ends on: its opposite portal when `t` is a
      portal and the mirror lookup (`exits`) finds an existing node, else `t`. */
  function ExitOf(t: Handle, g: NodeMap, exits: map<Handle, Handle>): (e: Handle)
    requires t in g
    ensures e in g
    ensures g[t].isPortal && t in exits && exits[t] in g ==> e == exits[t]
    ensures !(g[t].isPortal && t in exits && exits[t] in g) ==> e == t
  {
    if g[t].isPortal && t in exits && exits[t] in g then exits[t] else t
  }

  /** What one frame produces: the Pac-Man record and its on-screen position. */
  datatype Frame = Frame(pacman: Pacman, position: Vec2)

  /** Arrival at `t`: snap exactly onto it, then teleport through the portal
      when there is one. Nothing but the node and the positions changes. */
  function Arrive(p: Pacman, t: Handle, g: NodeMap, exits: map<Handle, Handle>): (f: Frame)
    requires t in g
    ensures f.pacman.currentNode in g
    ensures f.position == g[f.pacman.currentNode].position && f.pacman.nodePosition == f.position
    ensures f.pacman.currentNode == ExitOf(t, g, exits)
    ensures f.pacman.(currentNode := p.currentNode, nodePosition := p.nodePosition) == p
  {
    var snapped := p.(currentNode := t, nodePosition := g[t].position);
    if g[t].isPortal && t in exits && exits[t] in g then
      var o := exits[t];
      Frame(snapped.(currentNode := o, nodePosition := g[o].position), g[o].position)
    else
      Frame(snapped, g[t].position)
  }

  /** After an arrival: take the queued heading if it is valid here, and
      clear the queue; otherwise leave everything as it is. */
  function ApplyQueued(p: Pacman, g: NodeMap): (r: Pacman)
    ensures p.queuedDirection.Some? && ValidDirection(p, p.queuedDirection.value, g) ==>
              && r.queuedDirection.None?
              && r.currentNode == p.currentNode
              && Settled(r)
              && (r.targetNode.Some? <==> CanLeave(g, p.currentNode, p.queuedDirection.value))
              && (r.targetNode.Some? ==> r.nodeDirection == p.queuedDirection.value && Link(g, r.currentNode, p.queuedDirection.value) == r.targetNode)
              && (r.targetNode.None? ==> r.nodeDirection == Stop)
    ensures !(p.queuedDirection.Some? && ValidDirection(p, p.queuedDirection.value, g)) ==> r == p
    ensures r.nodePosition == p.nodePosition
    ensures r.speed == p.speed && r.radius == p.radius && r.isReversing == p.isReversing
  {
    match p.queuedDirection
    case Some(q) =>
      if ValidDirection(p, q, g) then
        SetDirectionAndTarget(p, q, g, false).(queuedDirection := None)
      else
        p
    case None => p
  }

  /** This frame's move reaches the end of the edge and there is a target
      node to snap to. */
  ghost predicate Arrives(p: Pacman, pos: Vec2, g: NodeMap, dt: real)
  {
    OvershotTarget(p, Advance(p, pos, dt), g) && p.targetNode.Some? && p.targetNode.value in g
  }

  /** One pass of `pacman_node_based_movement_system`: move, and on overshoot
      snap to the target, teleport through a portal, then try the queue.
      `exits` stands for the opposite-portal lookup. */
  function MovementStep(p: Pacman, pos: Vec2, g: NodeMap, exits: map<Handle, Handle>, dt: real): (f: Frame)
    ensures !Arrives(p, pos, g, dt) ==> f.pacman == p && f.position == Advance(p, pos, dt)
    ensures Arrives(p, pos, g, dt) ==>
              && f.pacman.currentNode == ExitOf(p.targetNode.value, g, exits)
              && f.position == g[f.pacman.currentNode].position
              && f.pacman.nodePosition == f.position
    ensures Arrives(p, pos, g, dt) && p.queuedDirection.Some? && ValidDirection(f.pacman, p.queuedDirection.value, g) ==>
              && f.pacman.queuedDirection.None? && Settled(f.pacman)
              && (f.pacman.targetNode.Some? <==> CanLeave(g, f.pacman.currentNode, p.queuedDirection.value))
              && (f.pacman.targetNode.Some? ==>
                    f.pacman.nodeDirection == p.queuedDirection.value
                    && Link(g, f.pacman.currentNode, p.queuedDirection.value) == f.pacman.targetNode)
              && (f.pacman.targetNode.None? ==> f.pacman.nodeDirection == Stop)
    ensures Arrives(p, pos, g, dt) && !(p.queuedDirection.Some? && ValidDirection(f.pacman, p.queuedDirection.value, g)) ==>
              && f.pacman.queuedDirection == p.queuedDirection
              && f.pacman.nodeDirection == p.nodeDirection
              && f.pacman.targetNode == p.targetNode
    ensures f.pacman.speed == p.speed && f.pacman.radius == p.radius && f.pacman.isReversing == p.isReversing
  {
    var moved := Advance(p, pos, dt);
    if OvershotTarget(p, moved, g) then
      match p.targetNode
      case Some(t) =>
        if t in g then
          var arrived := Arrive(p, t, g, exits);
          Frame(ApplyQueued(arrived.pacman, g), arrived.position)
        else
          Frame(p, moved)
      case None => Frame(p, moved)
    else
      Frame(p, moved)
  }

  /** The input step never breaks the navigation invariant. */
  lemma InputKeepsSettled(p: Pacman, g: NodeMap, request: Option<Dir>)
    requires Settled(p)
    ensures Settled(InputStep(p, g, request))
  {
  }

  /** Reversal is immediate: moving from A to B with a link back from B to
      A, the opposite request makes B current and A the target at once. */
  lemma {:induction false} ReversalSwapsEnds(p: Pacman, g: NodeMap, a: Handle, b: Handle)
    requires p.nodeDirection != Stop && p.currentNode == a && p.targetNode == Some(b) && a != b
    requires Link(g, b, Opposite(p.nodeDirection)) == Some(a)
    ensures InputStep(p, g, Some(Opposite(p.nodeDirection))).currentNode == b
    ensures InputStep(p, g, Some(Opposite(p.nodeDirection))).targetNode == Some(a)
    ensures InputStep(p, g, Some(Opposite(p.nodeDirection))).nodeDirection == Opposite(p.nodeDirection)
  {
    var d := Opposite(p.nodeDirection);
    assert d != Stop;
    assert CanLeave(g, b, d);
    var r := SetDirectionAndTarget(p, d, g, true);
    assert r.currentNode == b;
    assert r.targetNode.Some?;
  }

  /** Moving one way and then the other for the same distance cancels out. */
  lemma DeltaReverses(d: Dir, distance: real)
    ensures Delta(Opposite(d), distance) == Neg(Delta(d, distance))
  {
  }

  /** When the node ahead lies `len` along the heading, the squared-distance
      test fires exactly once Pac-Man has travelled at least `len` that way. */
  lemma {:induction false} OvershootOnAxis(p: Pacman, g: NodeMap, s: real, len: real)
    requires p.currentNode in g && p.nodeDirection != Stop
    requires Link(g, p.currentNode, p.nodeDirection).Some?
    requires Link(g, p.currentNode, p.nodeDirection).value in g
    requires g[Link(g, p.currentNode, p.nodeDirection).value].position
             == Add(g[p.currentNode].position, Delta(p.nodeDirection, len))
    requires 0.0 <= s && 0.0 <= len
    ensures OvershotTarget(p, Add(g[p.currentNode].position, Delta(p.nodeDirection, s)), g) <==> s >= len
  {
    var c := g[p.currentNode].position;
    var t := Link(g, p.currentNode, p.nodeDirection).value;
    assert GetNewTarget(p, p.nodeDirection, g) == t;
    SubAdd(c, Delta(p.nodeDirection, s));
    SubAdd(c, Delta(p.nodeDirection, len));
    AxisLength(p.nodeDirection, s);
    AxisLength(p.nodeDirection, len);
    SquareMonotone(s, len);
  }

  /** The test is blind to direction: when the node ahead lies `len`
      AGAINST the heading, it fires exactly once Pac-Man has travelled at
      least `len` along the heading, away from that node. */
  lemma {:induction false} OvershootAgainstAxis(p: Pacman, g: NodeMap, s: real, len: real)
    requires p.currentNode in g && p.nodeDirection != Stop
    requires Link(g, p.currentNode, p.nodeDirection).Some?
    requires Link(g, p.currentNode, p.nodeDirection).value in g
    requires g[Link(g, p.currentNode, p.nodeDirection).value].position
             == Add(g[p.currentNode].position, Delta(p.nodeDirection, -len))
    requires 0.0 <= s && 0.0 <= len
    ensures OvershotTarget(p, Add(g[p.currentNode].position, Delta(p.nodeDirection, s)), g) <==> s >= len
  {
    var c := g[p.currentNode].position;
    var t := Link(g, p.currentNode, p.nodeDirection).value;
    assert GetNewTarget(p, p.nodeDirection, g) == t;
    SubAdd(c, Delta(p.nodeDirection, s));
    SubAdd(c, Delta(p.nodeDirection, -len));
    AxisLength(p.nodeDirection, s);
    AxisLength(p.nodeDirection, -len);
    assert (-len) * (-len) == len * len;
    SquareMonotone(s, len);
  }

  lemma AxisLength(d: Dir, distance: real)
    requires d != Stop
    ensures LengthSquared(Delta(d, distance)) == distance * distance
  {
    match d
    case Up =>
    case Down => assert (-distance) * (-distance) == distance * distance;
    case Left => assert (-distance) * (-distance) == distance * distance;
    case Right =>
  }

  /** An arrival that does not apply the queue leaves `targetNode` naming the
      node just reached (or the portal left behind): the record is not
      Settled until the next input step re-derives the target. */
  lemma {:induction false} ArrivalLeavesStaleTarget(p: Pacman, pos: Vec2, g: NodeMap, exits: map<Handle, Handle>, dt: real)
    requires Arrives(p, pos, g, dt) && p.queuedDirection.None?
    requires !g[p.targetNode.value].isPortal
    ensures MovementStep(p, pos, g, exits, dt).pacman.targetNode == Some(MovementStep(p, pos, g, exits, dt).pacman.currentNode)
    ensures !Settled(MovementStep(p, pos, g, exits, dt).pacman)
    ensures Settled(InputStep(MovementStep(p, pos, g, exits, dt).pacman, g, None))
  {
    var f := MovementStep(p, pos, g, exits, dt);
    assert ExitOf(p.targetNode.value, g, exits) == p.targetNode.value;
    assert f.pacman.currentNode == p.targetNode.value;
  }

  /** Arrival at a portal whose opposite node is found ends on that node:
      Pac-Man and its on-screen position jump there in the same frame.
      Arrival anywhere else ends on the target itself. */
  lemma {:induction false} PortalArrivalTeleports(p: Pacman, pos: Vec2, g: NodeMap, exits: map<Handle, Handle>, dt: real)
    requires Arrives(p, pos, g, dt)
    ensures var t := p.targetNode.value;
            var f := MovementStep(p, pos, g, exits, dt);
            && (g[t].isPortal && t in exits && exits[t] in g ==>
                  f.pacman.currentNode == exits[t] && f.position == g[exits[t]].position)
            && (!g[t].isPortal ==> f.pacman.currentNode == t && f.position == g[t].position)
  {
    var t := p.targetNode.value;
    var e := ExitOf(t, g, exits);
    assert MovementStep(p, pos, g, exits, dt).pacman.currentNode == e;
  }
}

=== FILE: geometry.dfy ===
/** Screen constants shared by every file of the game, and exact 2-D vectors. */
module Geometry {

  /** Tiles are 16 x 16 world units on a 448 x 512 screen. */
  const TileSize: real := 16.0
  const ScreenWidth: real := 448.0
  const ScreenHeight: real := 512.0

  /** A world position or displacement (Bevy's `Vec2`), without f32 rounding. */
  datatype Vec2 = Vec2(x: real, y: real)

  const Zero: Vec2 := Vec2(0.0, 0.0)

  function Add(a: Vec2, b: Vec2): Vec2
  {
    Vec2(a.x + b.x, a.y + b.y)
  }

  function Sub(a: Vec2, b: Vec2): Vec2
  {
    Vec2(a.x - b.x, a.y - b.y)
  }

  function Neg(a: Vec2): Vec2
  {
    Vec2(-a.x, -a.y)
  }

  /** `Vec2::length_squared`. */
  function LengthSquared(v: Vec2): real
  {
    v.x * v.x + v.y * v.y
  }

  lemma LengthSquaredNonNegative(v: Vec2)
    ensures LengthSquared(v) >= 0.0
    ensures LengthSquared(v) == 0.0 <==> v == Zero
  {
    SquareNonNegative(v.x);
    SquareNonNegative(v.y);
    if v.x != 0.0 {
      calc {
        LengthSquared(v);
        v.x * v.x + v.y * v.y;
      >= v.x * v.x;
      > { SquarePositive(v.x); }
        0.0;
      }
    } else if v.y != 0.0 {
      calc {
        LengthSquared(v);
        v.x * v.x + v.y * v.y;
      >= v.y * v.y;
      > { SquarePositive(v.y); }
        0.0;
      }
    }
  }

  lemma SubAdd(a: Vec2, v: Vec2)
    ensures Sub(Add(a, v), a) == v
  {
  }

  /** For non-negative lengths, comparing squares is comparing lengths. */
  lemma SquareMonotone(a: real, b: real)
    requires 0.0 <= a && 0.0 <= b
    ensures a * a >= b * b <==> a >= b
  {
    if a >= b {
      calc {
        a * a;
      >= { MulLeft(a, a, b); }
        a * b;
      >= { MulRight(b, a, b); }
        b * b;
      }
    } else {
      calc {
        a * a;
      <= { MulLeft(a, b, a); }
        a * b;
      < { MulLeftStrict(b, b, a); }
        b * b;
      }
    }
  }

  lemma SquareNonNegative(x: real)
    ensures x * x >= 0.0
  {
    if x < 0.0 {
      assert x * x == (-x) * (-x);
      MulLeft(-x, -x, 0.0);
    } else {
      MulLeft(x, x, 0.0);
    }
  }

  lemma SquarePositive(x: real)
    requires x != 0.0
    ensures x * x > 0.0
  {
    if x < 0.0 {
      assert x * x == (-x) * (-x);
      MulLeftStrict(-x, -x, 0.0);
    } else {
      MulLeftStrict(x, x, 0.0);
    }
  }

  lemma MulLeft(c: real, a: real, b: real)
    requires 0.0 <= c && a >= b
    ensures c * a >= c * b
  {
  }

  lemma MulRight(c: real, a: real, b: real)
    requires 0.0 <= c && a >= b
    ensures a * c >= b * c
  {
  }

  lemma MulLeftStrict(c: real, a: real, b: real)
    requires 0.0 < a && c > b
    ensures c * a > b * a
  {
  }
}

=== FILE: ghosts.dfy ===
/** A ghost's navigation state, its random-walk direction choice and its
    transitions (src/ghosts.rs). */
module GhostNav {
  import opened Wrappers
  import opened Direction
  import opened Geometry
  import opened Graph

  const Radius: real := 5.0

  /** The navigation record carried by a ghost entity. */
  datatype Ghost = Ghost(
    radius: real,
    nodePosition: Vec2,
    speed: real,
    nodeDirection: Dir,
    queuedDirection: Option<Dir>,
    currentNode: Handle,
    targetNode: Option<Handle>,
    isReversing: bool,
    isVisible: bool,
    goal: Vec2)

  /** The navigation invariant: heading for a node other than the current
      one, or stopped with no target. Unlike Pac-Man, a ghost may head
      somewhere under Stop when a node stores a link under the Stop key. */
  ghost predicate Settled(gh: Ghost)
  {
    || (gh.targetNode.Some? && gh.targetNode.value != gh.currentNode)
    || (gh.nodeDirection == Stop && gh.targetNode.None?)
  }

  /** `Ghost::new`: a freshly spawned ghost stands still, visible, on its node. */
  function New(nodePosition: Vec2, currentNode: Handle, queuedDirection: Option<Dir>): (gh: Ghost)
    ensures gh.nodeDirection == Stop && gh.targetNode.None? && !gh.isReversing && gh.isVisible
    ensures gh.currentNode == currentNode && gh.queuedDirection == queuedDirection
    ensures gh.nodePosition == nodePosition && gh.goal == Zero
    ensures gh.speed == 100.0 && gh.radius == 5.0
    ensures Settled(gh)
  {
    Ghost(Radius, nodePosition, 100.0 * (TileSize / 16.0), Stop, queuedDirection, currentNode, None, false, true, Vec2(0.0, 0.0))
  }

  /** Heading `d` is a candidate at `node`: a neighbour is stored under it
      and it does not turn straight back against `heading`. */
  ghost predicate Qualifies(node: NodeRec, heading: Dir, d: Dir)
  {
    d in node.neighbors && node.neighbors[d].Some? && d != Opposite(heading)
  }

  /** The qualifying headings of `ds`, in the order of `ds`. */
  function Candidates(ds: seq<Dir>, node: NodeRec, heading: Dir): (r: seq<Dir>)
    requires StrictlyRanked(ds)
    ensures forall d :: d in r <==> d in ds && Qualifies(node, heading, d)
    ensures StrictlyRanked(r)
    decreases |ds|
  {
    if |ds| == 0 then
      []
    else
      var d0 := ds[0];
      RankedTail(ds);
      var rest := Candidates(ds[1..], node, heading);
      if d0 in node.neighbors && node.neighbors[d0].Some? && d0 != Opposite(heading) then
        [d0] + rest
      else
        rest
  }

  /** No heading other than Stop qualifies at the ghost's current node
      (including when the node lookup fails). */
  ghost predicate Cornered(gh: Ghost, g: NodeMap)
  {
    forall d :: d != Stop && gh.currentNode in g ==> !Qualifies(g[gh.currentNode], gh.nodeDirection, d)
  }

  /** `valid_directions`: the linked headings at the current node, scanned
      Up, Down, Left, Right, minus the reverse of the current heading; when
      none is left, just the current heading. */
  function ValidDirections(gh: Ghost, g: NodeMap): (r: seq<Dir>)
    ensures |r| > 0
    ensures Cornered(gh, g) ==> r == [gh.nodeDirection]
    ensures !Cornered(gh, g) ==>
              && StrictlyRanked(r)
              && gh.currentNode in g
              && forall d :: d in r <==> d != Stop && Qualifies(g[gh.currentNode], gh.nodeDirection, d)
  {
    if gh.currentNode in g then
      var found := Candidates(Cardinals, g[gh.currentNode], gh.nodeDirection);
      if |found| == 0 then
        assert Cornered(gh, g) by {
          forall d | d != Stop ensures !Qualifies(g[gh.currentNode], gh.nodeDirection, d) {
            CardinalsAreNotStop(d);
          }
        }
        [gh.nodeDirection]
      else
        assert !Cornered(gh, g) by {
          CardinalsAreNotStop(found[0]);
        }
        assert forall d :: d in found <==> d != Stop && Qualifies(g[gh.currentNode], gh.nodeDirection, d) by {
          forall d ensures d in found <==> d != Stop && Qualifies(g[gh.currentNode], gh.nodeDirection, d) {
            CardinalsAreNotStop(d);
          }
        }
        found
    else
      [gh.nodeDirection]
  }

  /** `choose_random_direction`: the random generator is replaced by the
      index `pick` it would have drawn. */
  function ChooseRandomDirection(ds: seq<Dir>, pick: nat): (r: Option<Dir>)
    ensures r.None? <==> |ds| == 0
    ensures r.Some? ==> r.value in ds
  {
    if |ds| == 0 then None else Some(ds[pick % |ds|])
  }

  /** `get_new_target`: the neighbour stored in heading `d` (with no validity
      gate, so even under the Stop key), or the current node. */
  function GetNewTarget(gh: Ghost, d: Dir, g: NodeMap): (t: Handle)
    ensures t != gh.currentNode ==> Link(g, gh.currentNode, d) == Some(t)
    ensures Link(g, gh.currentNode, d).Some? ==> t == Link(g, gh.currentNode, d).value
    ensures Link(g, gh.currentNode, d).None? ==> t == gh.currentNode
  {
    if gh.currentNode in g then
      var entry: Option<Option<Handle>> := Get(g[gh.currentNode].neighbors, d);
      match entry
      case Some(Some(t)) => t
      case _ => gh.currentNode
    else
      gh.currentNode
  }

  /** `set_direction_and_target`, as for Pac-Man but over the ungated lookup. */
  function SetDirectionAndTarget(gh: Ghost, newDirection: Dir, g: NodeMap, isReverse: bool): (r: Ghost)
    ensures Settled(r)
    ensures r.targetNode.Some? <==> CanLeave(g, r.currentNode, newDirection)
    ensures r.targetNode.Some? ==> r.nodeDirection == newDirection && Link(g, r.currentNode, newDirection) == r.targetNode
    ensures r.targetNode.None? ==> r.nodeDirection == Stop
    ensures !isReverse ==> r.currentNode == gh.currentNode
    ensures isReverse ==> r.currentNode == (if gh.targetNode.Some? then gh.targetNode.value else gh.currentNode)
    ensures r.queuedDirection == gh.queuedDirection && r.nodePosition == gh.nodePosition && r.goal == gh.goal
    ensures r.speed == gh.speed && r.radius == gh.radius && r.isReversing == gh.isReversing && r.isVisible == gh.isVisible
  {
    var aimed := gh.(nodeDirection := newDirection);
    var origin := gh.currentNode;
    var swapped :=
      if isReverse then
        aimed.(currentNode := (match gh.targetNode case Some(t) => t case None => gh.currentNode),
               targetNode := Some(origin))
      else
        aimed;
    var next := GetNewTarget(swapped, newDirection, g);
    if next != swapped.currentNode then
      swapped.(targetNode := Some(next))
    else
      swapped.(nodeDirection := Stop, targetNode := None)
  }

  /** `overshot_target`: the same squared-distance rule as Pac-Man's; false
      when either node lookup fails. */
  function OvershotTarget(gh: Ghost, pos: Vec2, g: NodeMap): (r: bool)
    ensures gh.currentNode !in g ==> !r
    ensures r ==> GetNewTarget(gh, gh.nodeDirection, g) in g
  {
    var t := GetNewTarget(gh, gh.nodeDirection, g);
    if t in g && gh.currentNode in g then
      var toTarget := Sub(g[t].position, g[gh.currentNode].position);
      var toGhost := Sub(pos, g[gh.currentNode].position);
      LengthSquared(toGhost) >= LengthSquared(toTarget)
    else
      false
  }

  /** `initialize_ghost_movement`: pick one of the valid headings and set off
      that way without reversing. */
  function InitializeMovement(gh: Ghost, g: NodeMap, pick: nat): (r: Ghost)
    ensures Settled(r)
    ensures r.currentNode == gh.currentNode
    ensures r.nodeDirection == Stop || r.nodeDirection in ValidDirections(gh, g)
    ensures var ds := ValidDirections(gh, g);
            var d := ds[pick % |ds|];
            && (r.targetNode.Some? <==> CanLeave(g, gh.currentNode, d))
            && (r.targetNode.Some? ==> r.nodeDirection == d && Link(g, r.currentNode, d) == r.targetNode)
            && (r.targetNode.None? ==> r.nodeDirection == Stop)
    ensures r.(nodeDirection := gh.nodeDirection, targetNode := gh.targetNode) == gh
  {
    match ChooseRandomDirection(ValidDirections(gh, g), pick)
    case Some(d) => SetDirectionAndTarget(gh, d, g, false)
    case None => gh
  }

  /** Every candidate can be drawn: the choice covers the whole list. */
  lemma EveryCandidateCanBeChosen(ds: seq<Dir>, i: nat)
    requires i < |ds|
    ensures ChooseRandomDirection(ds, i) == Some(ds[i])
  {
  }

  /** At a dead end, whose only link (if any) leads back the way the ghost
      came, the code does not reverse: the list is just the current heading,
      and setting off that way stops the ghost. */
  lemma {:induction false} DeadEndStops(gh: Ghost, g: NodeMap)
    requires gh.currentNode in g && gh.nodeDirection != Stop
    requires forall d :: Link(g, gh.currentNode, d).Some? ==> d == Opposite(gh.nodeDirection)
    ensures ValidDirections(gh, g) == [gh.nodeDirection]
    ensures SetDirectionAndTarget(gh, gh.nodeDirection, g, false).nodeDirection == Stop
    ensures SetDirectionAndTarget(gh, gh.nodeDirection, g, false).targetNode.None?
  {
    var node := g[gh.currentNode];
    assert Cornered(gh, g) by {
      forall d | d != Stop
        ensures !Qualifies(node, gh.nodeDirection, d)
      {
        if d in node.neighbors && node.neighbors[d].Some? {
          assert Link(g, gh.currentNode, d).Some?;
        }
      }
    }
    assert Link(g, gh.currentNode, gh.nodeDirection).None?;
  }

  /** A ghost on a node with a link it may take (one that does not turn
      straight back, and no link to itself) sets off along a link, whatever
      index is drawn. */
  lemma {:induction false} SpawnedGhostMoves(gh: Ghost, g: NodeMap, d: Dir, pick: nat)
    requires gh.currentNode in g
    requires d != Stop && Qualifies(g[gh.currentNode], gh.nodeDirection, d)
    requires forall e :: Link(g, gh.currentNode, e).Some? ==> Link(g, gh.currentNode, e).value != gh.currentNode
    ensures InitializeMovement(gh, g, pick).nodeDirection != Stop
    ensures InitializeMovement(gh, g, pick).targetNode.Some?
  {
    var vd := ValidDirections(gh, g);
    assert !Cornered(gh, g);
    var e := vd[pick % |vd|];
    assert e in vd;
    assert CanLeave(g, gh.currentNode, e);
  }
}

=== FILE: graph.dfy ===
/** The navigation graph as the movement code sees it: the game's `MapNode`
    components, reached through a query by entity handle. */
module Graph {
  import opened Wrappers
  import opened Direction
  import opened Geometry

  /** An entity id. */
  type Handle = nat

  /** One graph node: where it is, its neighbour table and whether it is a
      wrap-around portal. A heading missing from `neighbors` and a heading
      mapped to None are different states, and the code tells them apart. */
  datatype NodeRec = NodeRec(position: Vec2, neighbors: map<Dir, Option<Handle>>, isPortal: bool)

  /** The node query: a handle outside the map is a failed lookup. */
  type NodeMap = map<Handle, NodeRec>

  /** The neighbour actually linked from `h` towards `d`: the node exists,
      the heading is a key and its entry is Some. */
  function Link(g: NodeMap, h: Handle, d: Dir): (r: Option<Handle>)
    ensures r.Some? <==> h in g && d in g[h].neighbors && g[h].neighbors[d].Some?
    ensures r.Some? ==> g[h].neighbors[d] == r
  {
    if h in g && d in g[h].neighbors then g[h].neighbors[d] else None
  }

  /** An agent at `h` has somewhere else to go in heading `d`. */
  ghost predicate CanLeave(g: NodeMap, h: Handle, d: Dir)
  {
    Link(g, h, d).Some? && Link(g, h, d).value != h
  }
}

=== FILE: maze.dfy ===
/** The tile grid resource (src/map.rs): a rectangle of path tiles walled in
    on all four sides. */
module Maze {
  import opened Geometry

  datatype TileType = Wall | Path | Pellet

  /** Columns and rows: the screen size divided by the tile size, truncated
      as the `as usize` cast does. */
  const MapWidth: int := (ScreenWidth / TileSize).Floor
  const MapHeight: int := (ScreenHeight / TileSize).Floor

  type Grid = seq<seq<TileType>>

  /** The tile a generated grid holds at column `x`, row `y`. */
  function BorderTile(x: int, y: int): TileType
  {
    if x == 0 || x == MapWidth - 1 || y == 0 || y == MapHeight - 1 then Wall else Path
  }

  /** The whole generated grid, row by row. */
  function BorderedGrid(): (grid: Grid)
    ensures |grid| == MapHeight
    ensures forall y :: 0 <= y < MapHeight ==> |grid[y]| == MapWidth
  {
    seq(MapHeight, y => seq(MapWidth, x => BorderTile(x, y)))
  }

  lemma MapSize()
    ensures MapWidth == 28 && MapHeight == 32
  {
  }

  /** `generate_grid`: fill with Path, then wall the top and bottom rows and
      the left and right columns. */
  method GenerateGrid() returns (grid: Grid)
    ensures |grid| == MapHeight
    ensures forall y :: 0 <= y < |grid| ==> |grid[y]| == MapWidth
    ensures forall y, x :: 0 <= y < MapHeight && 0 <= x < MapWidth ==> grid[y][x] == BorderTile(x, y)
    ensures grid == BorderedGrid()
  {
    MapSize();
    var row := seq(MapWidth, _ => Path);
    grid := seq(MapHeight, _ => row);
    for x := 0 to MapWidth
      invariant |grid| == MapHeight
      invariant forall y :: 0 <= y < MapHeight ==> |grid[y]| == MapWidth
      invariant forall y, c :: 0 <= y < MapHeight && 0 <= c < MapWidth ==>
                  grid[y][c] == (if (y == 0 || y == MapHeight - 1) && c < x then Wall else Path)
    {
      grid := grid[0 := grid[0][x := Wall]];
      grid := grid[MapHeight - 1 := grid[MapHeight - 1][x := Wall]];
    }
    for y := 0 to MapHeight
      invariant |grid| == MapHeight
      invariant forall r :: 0 <= r < MapHeight ==> |grid[r]| == MapWidth
      invariant forall r, c :: 0 <= r < MapHeight && 0 <= c < MapWidth ==>
                  grid[r][c] == (if r == 0 || r == MapHeight - 1 || ((c == 0 || c == MapWidth - 1) && r < y) then Wall else Path)
    {
      grid := grid[y := grid[y][0 := Wall]];
      grid := grid[y := grid[y][MapWidth - 1 := Wall]];
    }
    forall y | 0 <= y < MapHeight
      ensures grid[y] == BorderedGrid()[y]
    {
    }
  }

  /** `generate_debug_grid`: the game's second copy of the same generator. */
  method GenerateDebugGrid() returns (grid: Grid)
    ensures grid == BorderedGrid()
  {
    grid := GenerateGrid();
  }

  /** The `Map` resource. Its fields are private and only `Map::new` builds
      one, so every map is rectangular with matching width and height. */
  datatype Map = Map(grid: Grid, width: int, height: int)

  ghost predicate WellFormed(m: Map)
  {
    && m.height == |m.grid| && 0 < m.height
    && m.width == |m.grid[0]|
    && forall y :: 0 <= y < |m.grid| ==> |m.grid[y]| == m.width
  }

  /** `Map::new`: width from the first row, height from the number of rows. */
  method NewMap() returns (m: Map)
    ensures WellFormed(m)
    ensures m.width == 28 && m.height == 32
    ensures m.grid == BorderedGrid()
  {
    MapSize();
    var grid := GenerateDebugGrid();
    m := Map(grid, |grid[0]|, |grid|);
  }

  /** `is_wall` as written: a wall tile inside the grid; false outside it. */
  function IsWall(m: Map, x: int, y: int): (r: bool)
    requires WellFormed(m)
    ensures r ==> 0 <= x < m.width && 0 <= y < m.height
    ensures 0 <= x < m.width && 0 <= y < m.height ==> (r <==> m.grid[y][x] == Wall)
  {
    if x >= 0 && x < m.width && y >= 0 && y < m.height then
      m.grid[y][x] == Wall
    else
      false
  }

  /** The blocking test the comment in `is_wall` describes: a wall tile, or
      any position outside the grid. */
  function IsBlocked(m: Map, x: int, y: int): (r: bool)
    requires WellFormed(m)
    ensures !(0 <= x < m.width && 0 <= y < m.height) ==> r
    ensures 0 <= x < m.width && 0 <= y < m.height ==> (r <==> m.grid[y][x] == Wall)
  {
    if x >= 0 && x < m.width && y >= 0 && y < m.height then
      m.grid[y][x] == Wall
    else
      true
  }

  /** The map `Map::new` builds. */
  function BuiltMap(): (m: Map)
    ensures WellFormed(m)
  {
    MapSize();
    Map(BorderedGrid(), MapWidth, MapHeight)
  }

  /** On the built map, `is_wall` holds exactly on the four border lines. */
  lemma {:induction false} IsWallOnBuiltMap(x: int, y: int)
    ensures IsWall(BuiltMap(), x, y) <==>
              0 <= x < MapWidth && 0 <= y < MapHeight && (x == 0 || x == MapWidth - 1 || y == 0 || y == MapHeight - 1)
  {
    if 0 <= x < MapWidth && 0 <= y < MapHeight {
      assert BuiltMap().grid[y][x] == BorderTile(x, y);
    }
  }

  /** As written, a position just off the grid is not a wall. */
  lemma OutsideIsNotWall()
    ensures !IsWall(BuiltMap(), -1, 0)
  {
  }

  /** With out-of-bounds positions blocked, the open positions of the built
      map are exactly its interior tiles. */
  lemma {:induction false} OpenTilesAreInterior(x: int, y: int)
    ensures !IsBlocked(BuiltMap(), x, y) <==> 1 <= x < MapWidth - 1 && 1 <= y < MapHeight - 1
  {
    if 0 <= x < MapWidth && 0 <= y < MapHeight {
      assert BuiltMap().grid[y][x] == BorderTile(x, y);
    }
  }

  /** The generated grid never holds a pellet. */
  lemma NoPellets(x: int, y: int)
    requires 0 <= x < MapWidth && 0 <= y < MapHeight
    ensures BorderedGrid()[y][x] != Pellet
  {
  }

  /** The world position of the centre of tile (`x`, `y`) used when drawing
      the grid: columns run right from the left edge, rows run down from the
      top edge. */
  function TileCentre(x: int, y: int): (c: Vec2)
    ensures 0 <= x < MapWidth && 0 <= y < MapHeight ==>
              -ScreenWidth / 2.0 < c.x < ScreenWidth / 2.0 && -ScreenHeight / 2.0 < c.y < ScreenHeight / 2.0
  {
    Vec2(x as real * TileSize - ScreenWidth / 2.0 + TileSize / 2.0,
         -(y as real * TileSize - ScreenHeight / 2.0 + TileSize / 2.0))
  }

  /** Neighbouring columns are one tile apart to the right; neighbouring rows
      one tile apart downwards (towards -y). */
  lemma TileCentreSteps(x: int, y: int)
    ensures TileCentre(x + 1, y) == Vec2(TileCentre(x, y).x + TileSize, TileCentre(x, y).y)
    ensures TileCentre(x, y + 1) == Vec2(TileCentre(x, y).x, TileCentre(x, y).y - TileSize)
    ensures TileCentre(0, 0) == Vec2(-216.0, 248.0)
  {
  }
}

=== FILE: nodes.dfy ===
/** The hand-built test graph of src/node.rs: seven nodes A..G with fixed
    positions and neighbour tables. */
module TestNodes {
  import opened Wrappers
  import opened Direction
  import opened Geometry
  import opened Graph

  /** `Node::new`: a node at (`x`, `y`) with all four headings present and
      no neighbour stored under any of them. The game's `Node` has no portal
      flag; here it is false. */
  function NewNode(x: real, y: real): (n: NodeRec)
    ensures n.position == Vec2(x, y) && !n.isPortal
    ensures n.neighbors.Keys == {Up, Down, Left, Right}
    ensures forall d :: d in n.neighbors ==> n.neighbors[d].None?
  {
    NodeRec(Vec2(x, y), map[Up := None, Down := None, Left := None, Right := None], false)
  }

  /** `Node { neighbors, ..n }`: `n` with its neighbour table replaced. */
  function WithNeighbors(n: NodeRec, neighbors: map<Dir, Option<Handle>>): NodeRec
  {
    n.(neighbors := neighbors)
  }

  /** Entity handles in spawn order. */
  const A: Handle := 0
  const B: Handle := 1
  const C: Handle := 2
  const D: Handle := 3
  const E: Handle := 4
  const F: Handle := 5
  const G: Handle := 6

  /** The `NodeGroup` resource after `setup_test_nodes`. */
  datatype NodeGroup = NodeGroup(nodeList: seq<Handle>, nodes: NodeMap)

  /** The seven nodes the test graph is expected to hold: position,
      neighbour table, and no portal. */
  const NodeA: NodeRec := NodeRec(Vec2(-80.0, -80.0), map[Right := Some(B), Down := Some(C), Up := None, Left := None], false)
  const NodeB: NodeRec := NodeRec(Vec2(0.0, -80.0), map[Left := Some(A), Down := Some(D), Up := None, Right := None], false)
  const NodeC: NodeRec := NodeRec(Vec2(-80.0, 0.0), map[Up := Some(A), Right := Some(D), Down := Some(F), Left := None], false)
  const NodeD: NodeRec := NodeRec(Vec2(0.0, 0.0), map[Up := Some(B), Left := Some(C), Right := Some(E), Down := None], false)
  const NodeE: NodeRec := NodeRec(Vec2(80.0, 0.0), map[Left := Some(D), Down := Some(G), Up := None, Right := None], false)
  const NodeF: NodeRec := NodeRec(Vec2(-80.0, 160.0), map[Up := Some(C), Right := Some(G), Down := None, Left := None], false)
  const NodeG: NodeRec := NodeRec(Vec2(80.0, 160.0), map[Up := Some(E), Left := Some(F), Right := None, Down := None], false)

  /** `setup_test_nodes`: spawn seven nodes with `Node::new`, then replace
      each one's neighbour table. */
  function SetupTestNodes(): (group: NodeGroup)
    ensures group.nodeList == [A, B, C, D, E, F, G]
    ensures group.nodes.Keys == {A, B, C, D, E, F, G}
  {
    NodeGroup(
      [A, B, C, D, E, F, G],
      map[
        A := WithNeighbors(NewNode(-80.0, -80.0), map[Right := Some(B), Down := Some(C), Up := None, Left := None]),
        B := WithNeighbors(NewNode(0.0, -80.0), map[Left := Some(A), Down := Some(D), Up := None, Right := None]),
        C := WithNeighbors(NewNode(-80.0, 0.0), map[Up := Some(A), Right := Some(D), Down := Some(F), Left := None]),
        D := WithNeighbors(NewNode(0.0, 0.0), map[Up := Some(B), Left := Some(C), Right := Some(E), Down := None]),
        E := WithNeighbors(NewNode(80.0, 0.0), map[Left := Some(D), Down := Some(G), Up := None, Right := None]),
        F := WithNeighbors(NewNode(-80.0, 160.0), map[Up := Some(C), Right := Some(G), Down := None, Left := None]),
        G := WithNeighbors(NewNode(80.0, 160.0), map[Up := Some(E), Left := Some(F), Right := None, Down := None])])
  }

  /** The fixture graph. */
  function Nodes(): NodeMap
  {
    SetupTestNodes().nodes
  }

  /** `g` holds exactly the seven test nodes. Lemmas about the test graph
      are stated over any `g` meeting this, which `Nodes()` does. */
  ghost predicate IsTestGraph(g: NodeMap)
  {
    && g.Keys == {A, B, C, D, E, F, G}
    && g[A] == NodeA && g[B] == NodeB && g[C] == NodeC && g[D] == NodeD
    && g[E] == NodeE && g[F] == NodeF && g[G] == NodeG
  }

  /** The graph `setup_test_nodes` builds is the expected one: each node
      keeps the position `Node::new` gave it, is no portal, and carries the
      table written for it. */
  lemma NodesIsTestGraph()
    ensures IsTestGraph(Nodes())
  {
  }

  /** Seven distinct nodes, listed once each. */
  lemma SevenDistinctNodes()
    ensures |SetupTestNodes().nodeList| == 7
    ensures forall i, j :: 0 <= i < j < 7 ==> SetupTestNodes().nodeList[i] != SetupTestNodes().nodeList[j]
    ensures forall h :: h in SetupTestNodes().nodeList <==> h in Nodes()
  {
  }

  /** Every node keeps the four headings `Node::new` lists (and never
      Stop): the replacement tables only change what is stored under them. */
  lemma {:induction false} AllHeadingsPresent(g: NodeMap, h: Handle)
    requires IsTestGraph(g) && h in g
    ensures g[h].neighbors.Keys == {Up, Down, Left, Right}
    ensures g[h].neighbors.Keys == NewNode(g[h].position.x, g[h].position.y).neighbors.Keys
  {
    assert g[h] in {NodeA, NodeB, NodeC, NodeD, NodeE, NodeF, NodeG};
  }

  /** Links are two-way: a link from X to Y is matched by one from Y back
      to X in the opposite heading. */
  lemma {:induction false} LinksAreSymmetric(g: NodeMap, h: Handle, d: Dir)
    requires IsTestGraph(g) && Link(g, h, d).Some?
    ensures Link(g, Link(g, h, d).value, Opposite(d)) == Some(h)
  {
    assert h in {A, B, C, D, E, F, G};
  }

  /** Links never point back at their own node, and are axis-aligned: Right
      increases x, Left decreases it, and Down increases y, Up decreases it. */
  lemma {:induction false} LinksAreAxisAligned(g: NodeMap, h: Handle, d: Dir)
    requires IsTestGraph(g) && Link(g, h, d).Some?
    ensures Link(g, h, d).value != h
    ensures Link(g, h, d).value in g
    ensures var p, q := g[h].position, g[Link(g, h, d).value].position;
            match d
            case Right => q.y == p.y && q.x > p.x
            case Left => q.y == p.y && q.x < p.x
            case Down => q.x == p.x && q.y > p.y
            case Up => q.x == p.x && q.y < p.y
            case Stop => false
  {
    assert h in {A, B, C, D, E, F, G};
  }
}

=== FILE: pacman.dfy ===
/** Pac-Man's node-graph navigation state and its transitions (src/pacman.rs). */
module PacmanNav {
  import opened Wrappers
  import opened Direction
  import opened Geometry
  import opened Graph

  const Radius: real := 8.0

  /** The navigation record carried by the Pac-Man entity. Its on-screen
      position (the Transform) is kept outside the record, as in the game. */
  datatype Pacman = Pacman(
    radius: real,
    nodePosition: Vec2,
    speed: real,
    nodeDirection: Dir,
    queuedDirection: Option<Dir>,
    currentNode: Handle,
    targetNode: Option<Handle>,
    isReversing: bool)

  /** The navigation invariant: heading for a node other than the current
      one, or stopped with no target. */
  ghost predicate Settled(p: Pacman)
  {
    || (p.nodeDirection != Stop && p.targetNode.Some? && p.targetNode.value != p.currentNode)
    || (p.nodeDirection == Stop && p.targetNode.None?)
  }

  /** `Pacman::new`: a freshly spawned Pac-Man stands still on its node. */
  function New(nodePosition: Vec2, currentNode: Handle, queuedDirection: Option<Dir>): (p: Pacman)
    ensures p.nodeDirection == Stop && p.targetNode.None? && !p.isReversing
    ensures p.currentNode == currentNode && p.queuedDirection == queuedDirection
    ensures p.nodePosition == nodePosition
    ensures p.speed == 100.0 && p.radius == 8.0
    ensures Settled(p)
  {
    Pacman(Radius, nodePosition, 100.0 * (TileSize / 16.0), Stop, queuedDirection, currentNode, None, false)
  }

  /** `valid_direction`: the current node exists and lists the heading as a
      key, whether or not a neighbour is stored under it; Stop never is. */
  function ValidDirection(p: Pacman, d: Dir, g: NodeMap): (r: bool)
    ensures r ==> d != Stop && p.currentNode in g
    ensures p.currentNode in g && d != Stop ==> (r <==> d in g[p.currentNode].neighbors)
  {
    if p.currentNode in g then
      d in g[p.currentNode].neighbors && d != Stop
    else
      false
  }

  /** `get_new_target`: the neighbour linked in heading `d`, gated by
      `ValidDirection`, or the current node when there is none. */
  function GetNewTarget(p: Pacman, d: Dir, g: NodeMap): (t: Handle)
    ensures t != p.currentNode ==> d != Stop && Link(g, p.currentNode, d) == Some(t)
    ensures d != Stop && Link(g, p.currentNode, d).Some? ==> t == Link(g, p.currentNode, d).value
    ensures d == Stop || Link(g, p.currentNode, d).None? ==> t == p.currentNode
  {
    if p.currentNode in g && ValidDirection(p, d, g) then
      var entry: Option<Option<Handle>> := Get(g[p.currentNode].neighbors, d);
      match entry
      case Some(Some(t)) => t
      case _ => p.currentNode
    else
      p.currentNode
  }

  /** `set_direction_and_target`: take the new heading; on a reversal, swap
      to the node being approached; then aim at the next node that way, or
      stop when there is none. */
  function SetDirectionAndTarget(p: Pacman, newDirection: Dir, g: NodeMap, isReverse: bool): (r: Pacman)
    ensures Settled(r)
    ensures r.targetNode.Some? <==> newDirection != Stop && CanLeave(g, r.currentNode, newDirection)
    ensures r.targetNode.Some? ==> r.nodeDirection == newDirection && Link(g, r.currentNode, newDirection) == r.targetNode
    ensures r.targetNode.None? ==> r.nodeDirection == Stop
    ensures !isReverse ==> r.currentNode == p.currentNode
    ensures isReverse ==> r.currentNode == (if p.targetNode.Some? then p.targetNode.value else p.currentNode)
    ensures r.queuedDirection == p.queuedDirection && r.nodePosition == p.nodePosition
    ensures r.speed == p.speed && r.radius == p.radius && r.isReversing == p.isReversing
  {
    var aimed := p.(nodeDirection := newDirection);
    var origin := p.currentNode;
    var swapped :=
      if isReverse then
        aimed.(currentNode := (match p.targetNode case Some(t) => t case None => p.currentNode),
               targetNode := Some(origin))
      else
        aimed;
    var next := GetNewTarget(swapped, newDirection, g);
    if next != swapped.currentNode then
      swapped.(targetNode := Some(next))
    else
      swapped.(nodeDirection := Stop, targetNode := None)
  }

  /** `overshot_target`: the squared distance from the current node to `pos`
      has reached the squared length of the edge ahead. The node ahead is
      looked up again from the heading; `targetNode` is not consulted. */
  function OvershotTarget(p: Pacman, pos: Vec2, g: NodeMap): (r: bool)
    ensures p.currentNode !in g ==> !r
    ensures r ==> GetNewTarget(p, p.nodeDirection, g) in g
  {
    var t := GetNewTarget(p, p.nodeDirection, g);
    if t in g && p.currentNode in g then
      var toTarget := Sub(g[t].position, g[p.currentNode].position);
      var toPacman := Sub(pos, g[p.currentNode].position);
      LengthSquared(toPacman) >= LengthSquared(toTarget)
    else
      false
  }

  /** The validity test looks at keys only: a heading whose entry is None is
      still valid, and a linked heading is always valid. */
  lemma ValidDirectionIsKeyPresence(p: Pacman, d: Dir, g: NodeMap)
    requires p.currentNode in g && d != Stop
    ensures Link(g, p.currentNode, d).Some? ==> ValidDirection(p, d, g)
    ensures d in g[p.currentNode].neighbors && g[p.currentNode].neighbors[d].None? ==>
              ValidDirection(p, d, g) && GetNewTarget(p, d, g) == p.currentNode
  {
  }

  /** Stop always ends stopped, whatever the graph or the reversal flag. */
  lemma SetStopStops(p: Pacman, g: NodeMap, isReverse: bool)
    ensures SetDirectionAndTarget(p, Stop, g, isReverse).nodeDirection == Stop
    ensures SetDirectionAndTarget(p, Stop, g, isReverse).targetNode.None?
  {
  }

  /** The provisional `Some(origin)` written by a reversal never survives:
      the final target is the link ahead of the swapped-in node, or nothing. */
  lemma ReversalTargetRecomputed(p: Pacman, d: Dir, g: NodeMap)
    requires p.targetNode.Some? && p.targetNode.value != p.currentNode
    requires Link(g, p.targetNode.value, d).None?
    ensures SetDirectionAndTarget(p, d, g, true).targetNode.None?
    ensures SetDirectionAndTarget(p, d, g, true).currentNode == p.targetNode.value
  {
  }

  /** A stopped Pac-Man on an existing node has always "overshot": the edge
      ahead has length zero. */
  lemma {:induction false} StoppedAlwaysOvershoots(p: Pacman, pos: Vec2, g: NodeMap)
    requires p.nodeDirection == Stop && p.currentNode in g
    ensures OvershotTarget(p, pos, g)
  {
    var c := g[p.currentNode].position;
    assert GetNewTarget(p, Stop, g) == p.currentNode;
    assert Sub(c, c) == Zero;
    LengthSquaredNonNegative(Sub(pos, c));
    LengthSquaredNonNegative(Zero);
  }

  /** The overshoot test ignores `targetNode` entirely. */
  lemma OvershootIgnoresTargetNode(p: Pacman, pos: Vec2, g: NodeMap, other: Option<Handle>)
    ensures OvershotTarget(p.(targetNode := other), pos, g) == OvershotTarget(p, pos, g)
  {
  }
}

=== FILE: scenarios.dfy ===
/** Pac-Man and the ghosts on the seven-node test graph, and how the two
    agents' target lookups relate. */
module Scenarios {
  import opened Wrappers
  import opened Direction
  import opened Geometry
  import opened Graph
  import PacmanNav
  import GhostNav
  import opened Gameplay
  import opened TestNodes

  /** Pac-Man's validity gate only ever rules out Stop: on every other
      heading the two agents pick the same target. */
  lemma {:induction false} GateOnlyExcludesStop(p: PacmanNav.Pacman, gh: GhostNav.Ghost, d: Dir, g: NodeMap)
    requires p.currentNode == gh.currentNode
    ensures d != Stop ==> PacmanNav.GetNewTarget(p, d, g) == GhostNav.GetNewTarget(gh, d, g)
    ensures d == Stop ==> PacmanNav.GetNewTarget(p, d, g) == p.currentNode
  {
    if d != Stop {
      if Link(g, p.currentNode, d).Some? {
        assert PacmanNav.GetNewTarget(p, d, g) == Link(g, p.currentNode, d).value;
      }
    }
  }

  /** The ghost's overshoot test is Pac-Man's: for the same current node
      and the same heading (other than Stop) both give the same answer at
      every position, so `Gameplay.OvershootOnAxis` describes it too. */
  lemma {:induction false} GhostOvershootIsPacmans(p: PacmanNav.Pacman, gh: GhostNav.Ghost, pos: Vec2, g: NodeMap)
    requires p.currentNode == gh.currentNode && p.nodeDirection == gh.nodeDirection && p.nodeDirection != Stop
    ensures GhostNav.OvershotTarget(gh, pos, g) == PacmanNav.OvershotTarget(p, pos, g)
  {
    GateOnlyExcludesStop(p, gh, p.nodeDirection, g);
  }

  /** Under a Stop key that stores a link, the ghost sets off and Pac-Man
      stops. */
  lemma StopKeyOnlyMovesGhosts()
    ensures var g := map[A := NodeRec(Zero, map[Stop := Some(B)], false), B := NodeRec(Vec2(16.0, 0.0), map[], false)];
            && GhostNav.SetDirectionAndTarget(GhostNav.New(Zero, A, None), Stop, g, false).targetNode == Some(B)
            && PacmanNav.SetDirectionAndTarget(PacmanNav.New(Zero, A, None), Stop, g, false).targetNode.None?
  {
  }

  const Start: PacmanNav.Pacman := PacmanNav.New(Vec2(-80.0, -80.0), A, None)

  /** Holding Down at A starts Pac-Man with C as target. */
  lemma StartDownFromA(g: NodeMap)
    requires IsTestGraph(g)
    ensures PlayerInput(Start, g, {ArrowDown}) == Start.(nodeDirection := Down, targetNode := Some(C))
  {
    assert KeyPriority({ArrowDown}) == Some(Down);
    assert Link(g, A, Down) == Some(C);
  }

  /** Holding Right at A starts Pac-Man towards B. */
  lemma StartRightFromA(g: NodeMap)
    requires IsTestGraph(g)
    ensures PlayerInput(Start, g, {ArrowRight}) == Start.(nodeDirection := Right, targetNode := Some(B))
  {
    assert KeyPriority({ArrowRight}) == Some(Right);
    assert Link(g, A, Right) == Some(B);
  }

  /** Holding Up and Right at A: Up wins, has no link, and Pac-Man stays put. */
  lemma UpOutranksRight(g: NodeMap)
    requires IsTestGraph(g)
    ensures KeyPriority({ArrowRight, ArrowUp}) == Some(Up)
    ensures PlayerInput(Start, g, {ArrowRight, ArrowUp}).nodeDirection == Stop
    ensures PlayerInput(Start, g, {ArrowRight, ArrowUp}).targetNode.None?
  {
  }

  /** One second at speed 100 covers the 80-unit edge A-B: Pac-Man lands
      exactly on B. */
  lemma ArriveAtB(g: NodeMap)
    requires IsTestGraph(g)
    ensures var p := PlayerInput(Start, g, {ArrowRight});
            var f := MovementStep(p, Vec2(-80.0, -80.0), g, map[], 1.0);
            f.position == Vec2(0.0, -80.0) && f.pacman.currentNode == B && f.pacman.nodePosition == Vec2(0.0, -80.0)
  {
    StartRightFromA(g);
    var p := Start.(nodeDirection := Right, targetNode := Some(B));
    var moved := Advance(p, Vec2(-80.0, -80.0), 1.0);
    assert moved == Vec2(20.0, -80.0);
    assert PacmanNav.GetNewTarget(p, Right, g) == B;
    assert PacmanNav.OvershotTarget(p, moved, g);
  }

  /** On the way from A to B, before B is reached, pressing Left turns
      back at once: B becomes the current node and A the target, with no
      snap. */
  lemma ReverseMidEdge(g: NodeMap)
    requires IsTestGraph(g)
    ensures var p := PlayerInput(Start, g, {ArrowRight});
            var q := PlayerInput(p, g, {ArrowLeft});
            q.nodeDirection == Left && q.currentNode == B && q.targetNode == Some(A)
  {
    StartRightFromA(g);
    var p := Start.(nodeDirection := Right, targetNode := Some(B));
    ReversalSwapsEnds(p, g, A, B);
  }

  /** The overshoot test is blind to direction. Heading Down from A moves
      towards -y, away from C (which lies at +y in this graph), yet after
      80 units the test fires and Pac-Man is snapped onto C. */
  lemma DownSnapsAcross(g: NodeMap)
    requires IsTestGraph(g)
    ensures var p := PlayerInput(Start, g, {ArrowDown});
            var f := MovementStep(p, Vec2(-80.0, -80.0), g, map[], 0.8);
            && p.targetNode == Some(C)
            && Advance(p, Vec2(-80.0, -80.0), 0.8) == Vec2(-80.0, -160.0)
            && f.position == Vec2(-80.0, 0.0) && f.pacman.currentNode == C
  {
    StartDownFromA(g);
    var p := Start.(nodeDirection := Down, targetNode := Some(C));
    var moved := Advance(p, Vec2(-80.0, -80.0), 0.8);
    assert moved == Vec2(-80.0, -160.0);
    assert PacmanNav.GetNewTarget(p, Down, g) == C;
    assert PacmanNav.OvershotTarget(p, moved, g);
  }

  /** Moving Right from A with Down queued, Pac-Man arrives on B and turns
      there: Down is followed to D in the same frame and the queue is spent. */
  lemma QueuedTurnAtB(g: NodeMap)
    requires IsTestGraph(g)
    ensures var p := Start.(nodeDirection := Right, targetNode := Some(B), queuedDirection := Some(Down));
            var f := MovementStep(p, Vec2(-80.0, -80.0), g, map[], 1.0);
            && f.position == Vec2(0.0, -80.0) && f.pacman.currentNode == B
            && f.pacman.nodeDirection == Down && f.pacman.targetNode == Some(D) && f.pacman.queuedDirection.None?
  {
    var p := Start.(nodeDirection := Right, targetNode := Some(B), queuedDirection := Some(Down));
    var moved := Advance(p, Vec2(-80.0, -80.0), 1.0);
    assert moved == Vec2(20.0, -80.0);
    assert PacmanNav.GetNewTarget(p, Right, g) == B;
    assert PacmanNav.OvershotTarget(p, moved, g);
    var at := p.(currentNode := B, nodePosition := Vec2(0.0, -80.0));
    assert PacmanNav.ValidDirection(at, Down, g);
    assert Link(g, B, Down) == Some(D);
  }

  /** D lists Down with no neighbour, so a queued Down counts as valid on
      arrival at D: it is consumed and Pac-Man stops there instead of going
      on to E. */
  lemma QueuedDeadHeadingStopsAtD(g: NodeMap)
    requires IsTestGraph(g)
    ensures var p := PacmanNav.Pacman(PacmanNav.Radius, Vec2(-80.0, 0.0), 100.0, Right, Some(Down), C, Some(D), false);
            var f := MovementStep(p, Vec2(-80.0, 0.0), g, map[], 1.0);
            && f.pacman.currentNode == D && f.position == Vec2(0.0, 0.0)
            && f.pacman.nodeDirection == Stop && f.pacman.targetNode.None? && f.pacman.queuedDirection.None?
  {
    var p := PacmanNav.Pacman(PacmanNav.Radius, Vec2(-80.0, 0.0), 100.0, Right, Some(Down), C, Some(D), false);
    var moved := Advance(p, Vec2(-80.0, 0.0), 1.0);
    assert moved == Vec2(20.0, 0.0);
    assert PacmanNav.GetNewTarget(p, Right, g) == D;
    assert PacmanNav.OvershotTarget(p, moved, g);
    var at := p.(currentNode := D, nodePosition := Vec2(0.0, 0.0));
    assert PacmanNav.ValidDirection(at, Down, g);
    assert PacmanNav.GetNewTarget(at, Down, g) == D;
  }

  const Spawned: GhostNav.Ghost := GhostNav.New(Vec2(-80.0, -80.0), A, None)

  lemma CandidatesAtA()
    ensures GhostNav.Candidates(Cardinals, NodeA, Stop) == [Down, Right]
  {
    assert GhostNav.Candidates([], NodeA, Stop) == [];
    assert [Right][1..] == [];
    assert GhostNav.Candidates([Right], NodeA, Stop) == [Right];
    assert [Left, Right][1..] == [Right];
    assert GhostNav.Candidates([Left, Right], NodeA, Stop) == [Right];
    assert [Down, Left, Right][1..] == [Left, Right];
    assert GhostNav.Candidates([Down, Left, Right], NodeA, Stop) == [Down, Right];
    assert Cardinals[1..] == [Down, Left, Right];
  }

  /** A ghost spawned at A may go Down (to C) or Right (to B), in that order. */
  lemma GhostChoicesAtA(g: NodeMap)
    requires IsTestGraph(g)
    ensures GhostNav.ValidDirections(Spawned, g) == [Down, Right]
    ensures GhostNav.InitializeMovement(Spawned, g, 0).targetNode == Some(C)
    ensures GhostNav.InitializeMovement(Spawned, g, 1).targetNode == Some(B)
  {
    CandidatesAtA();
    assert Link(g, A, Down) == Some(C);
    assert Link(g, A, Right) == Some(B);
  }

  /** A corridor M with portals L (left) and R (right) whose exits are each
      other. */
  const M: Handle := 0
  const L: Handle := 1
  const R: Handle := 2
  const Corridor: NodeMap := map[
    M := NodeRec(Vec2(0.0, 0.0), map[Left := Some(L), Right := Some(R)], false),
    L := NodeRec(Vec2(-32.0, 0.0), map[Right := Some(M)], true),
    R := NodeRec(Vec2(32.0, 0.0), map[Left := Some(M)], true)]
  const Exits: map<Handle, Handle> := map[L := R, R := L]

  /** Heading Left from M, Pac-Man reaches the portal L and leaves the frame
      on R, at R's position. */
  lemma WrapThroughPortal()
    ensures var p := PacmanNav.Pacman(PacmanNav.Radius, Vec2(0.0, 0.0), 100.0, Left, None, M, Some(L), false);
            var f := MovementStep(p, Vec2(0.0, 0.0), Corridor, Exits, 1.0);
            f.pacman.currentNode == R && f.position == Vec2(32.0, 0.0)
  {
    var p := PacmanNav.Pacman(PacmanNav.Radius, Vec2(0.0, 0.0), 100.0, Left, None, M, Some(L), false);
    var moved := Advance(p, Vec2(0.0, 0.0), 1.0);
    assert moved == Vec2(-100.0, 0.0);
    assert PacmanNav.GetNewTarget(p, Left, Corridor) == L;
    assert PacmanNav.OvershotTarget(p, moved, Corridor);
    assert Arrives(p, Vec2(0.0, 0.0), Corridor, 1.0);
    PortalArrivalTeleports(p, Vec2(0.0, 0.0), Corridor, Exits, 1.0);
  }

  /** Three nodes X, Y, Z in a row along Right; Y has no Up entry. */
  const X: Handle := 0
  const Y: Handle := 1
  const Z: Handle := 2
  const Row: NodeMap := map[
    X := NodeRec(Vec2(0.0, 0.0), map[Right := Some(Y)], false),
    Y := NodeRec(Vec2(16.0, 0.0), map[Left := Some(X), Right := Some(Z)], false),
    Z := NodeRec(Vec2(32.0, 0.0), map[Left := Some(Y)], false)]

  /** Pac-Man standing on Y after an arrival whose queued Up was not valid
      there: the target still names Y. */
  const StaleAtY: PacmanNav.Pacman := PacmanNav.Pacman(PacmanNav.Radius, Vec2(16.0, 0.0), 100.0, Right, Some(Up), Y, Some(Y), false)

  /** Moving Right from X with Up queued, Pac-Man arrives on Y, where Up has
      no entry: the queue stays, and the target is left naming Y. */
  lemma ArriveWithInvalidQueue()
    ensures var p := PacmanNav.Pacman(PacmanNav.Radius, Vec2(0.0, 0.0), 100.0, Right, Some(Up), X, Some(Y), false);
            MovementStep(p, Vec2(0.0, 0.0), Row, map[], 0.16) == Frame(StaleAtY, Vec2(16.0, 0.0))
  {
    var p := PacmanNav.Pacman(PacmanNav.Radius, Vec2(0.0, 0.0), 100.0, Right, Some(Up), X, Some(Y), false);
    var moved := Advance(p, Vec2(0.0, 0.0), 0.16);
    assert moved == Vec2(16.0, 0.0);
    assert PacmanNav.GetNewTarget(p, Right, Row) == Y;
    assert PacmanNav.OvershotTarget(p, moved, Row);
    assert !PacmanNav.ValidDirection(StaleAtY, Up, Row);
  }

  /** While Up stays held, the input pass only re-queues it, so the stale
      target survives; when Pac-Man then reaches Z's distance, the overshoot
      test (which measures towards Z) fires and snaps it back onto Y. Pac-Man
      can never get past Y this way. */
  lemma HeldKeySnapsBack()
    ensures PlayerInput(StaleAtY, Row, {ArrowUp}) == StaleAtY
    ensures Advance(StaleAtY, Vec2(16.0, 0.0), 0.16) == Vec2(32.0, 0.0)
    ensures MovementStep(StaleAtY, Vec2(16.0, 0.0), Row, map[], 0.16) == Frame(StaleAtY, Vec2(16.0, 0.0))
  {
    assert KeyPriority({ArrowUp}) == Some(Up);
    var moved := Advance(StaleAtY, Vec2(16.0, 0.0), 0.16);
    assert moved == Vec2(32.0, 0.0);
    assert PacmanNav.GetNewTarget(StaleAtY, Right, Row) == Z;
    assert PacmanNav.OvershotTarget(StaleAtY, moved, Row);
    assert !PacmanNav.ValidDirection(StaleAtY, Up, Row);
  }
}

=== FILE: wrappers.dfy ===
/** Optional values, standing in for Rust's `Option`. */
module Wrappers {

  datatype Option<+T> = None | Some(value: T)

  /** `HashMap::get`: the entry stored under `k`, if the key is present. */
  function Get<K, V>(m: map<K, V>, k: K): (r: Option<V>)
    ensures r.Some? <==> k in m
    ensures r.Some? ==> r.value == m[k]
  {
    if k in m then Some(m[k]) else None
  }
}
